=== FILE: README.md ===
# MOX light, cover and lock entities in Dafny

This project models the logic of the Home Assistant MOX integration: the
adapter classes that expose MOX switches, dimmers and curtains as Home
Assistant lights, covers and locks. The device library the adapter
delegates to is not part of this model. Device readings (switch state,
luminous level, curtain position) are inputs to pure functions. Every call
the adapter makes on a device is returned as an element of a command list.
State written to Home Assistant is a boolean marker.

Modules, one per adapter file plus one shared module:

- `MoxEntity` (`entity.dfy`): `Option`, the callback kinds (`StateType`) and
  the entity display name.
- `Brightness` (`brightness.dfy`): the two scale conversions between Home
  Assistant brightness (0..255) and the dimmer's luminous level (0..100).
- `Light` (`light.dfy`): plain light and dimmer commands, readings and
  callbacks, and platform setup.
- `Cover` (`cover.dfy`): the opening/closing flag machine and runs of
  requests.
- `Lock` (`lock.dfy`): the lock-on-a-switch command sequences.

The source computes both brightness conversions in floating point and
truncates. For levels 0..100 and brightness 0..255 that equals integer
floor division, so the model states it as floor division on naturals.

## Model

| member | source | states |
|---|---|---|
| MoxEntity.DisplayName | homeassistant/components/mox/lock.py:55 | the friendly name when it is present and non-empty, otherwise the device name |
| MoxEntity.DisplayNameChoice | homeassistant/components/mox/lock.py:55 | the name is always one of the two; it is the device name exactly when the friendly name is missing, empty or equal to it |
| MoxEntity.LastWrittenAtLastWrite | homeassistant/components/mox/light.py:86-113 | for any callback that writes on some report kinds, over any series of reports it writes nothing without such a report, and its last write is the view of the reading at the last such report |
| Brightness.MoxToHa | homeassistant/components/mox/light.py:140-143 | level 0 gives 0 and level 100 gives 255; levels 0..100 stay within 0..255; the result is the largest b with b·100 ≤ level·255 |
| Brightness.HaToMox | homeassistant/components/mox/light.py:145-148 | brightness 0 gives 0 and 255 gives 100; brightness 0..255 stays within 0..100; the result is the largest l with l·255 ≤ b·100 |
| Brightness.MoxToHaMonotone | homeassistant/components/mox/light.py:143 | level to brightness is monotone, and strictly increasing |
| Brightness.HaToMoxMonotone | homeassistant/components/mox/light.py:148 | brightness to level is monotone |
| Brightness.LevelRoundTrip | homeassistant/components/mox/light.py:140-148 | level → brightness → level never gains and loses at most one level |
| Brightness.LevelRoundTripLoses | homeassistant/components/mox/light.py:140-148 | the round trip is not exact: level 1 → brightness 2 → level 0 |
| Brightness.BrightnessRoundTrip | homeassistant/components/mox/light.py:140-148 | brightness → level → brightness never gains and loses at most 3 |
| Brightness.ExactOnFifths | homeassistant/components/mox/light.py:140-148 | brightness 51·k and level 20·k (k ≤ 5) map to each other exactly |
| Brightness.HaToMoxOnto | homeassistant/components/mox/light.py:145-148 | every level 0..100 is the image of some brightness 0..255 |
| Brightness.HaToMoxZero | homeassistant/components/mox/light.py:145-148 | exactly brightness 0, 1 and 2 map to level 0 |
| Brightness.MoxToHaZero | homeassistant/components/mox/light.py:140-143 | only level 0 maps to brightness 0 |
| Light.TurnOnRequest | homeassistant/components/mox/light.py:91-119 | a plain light sends turn_on; a dimmer sends one set_luminous with second argument 100 and the converted brightness, level 100 when no brightness is given |
| Light.TurnOffRequest | homeassistant/components/mox/light.py:95-124 | a plain light sends turn_off; a dimmer sends set_luminous(0, 100) |
| Light.IsOn | homeassistant/components/mox/light.py:81-129 | a plain light is on when its switch is; a dimmer is on exactly when its level is non-zero |
| Light.ReportedBrightness | homeassistant/components/mox/light.py:131-138 | a dimmer reports the converted level (within 0..255 for levels 0..100); a plain light reports none |
| Light.Callback | homeassistant/components/mox/light.py:86-113 | a plain light writes state only for on/off reports, a dimmer only for luminous reports |
| Light.LastWrittenIsLastTrigger | homeassistant/components/mox/light.py:81-138 | over any series of reports nothing is written by the callback without an on/off report (plain light) or luminous report (dimmer), and the on/off and brightness it last wrote are those read at the last such report |
| Light.DimmerOnIffBright | homeassistant/components/mox/light.py:126-138 | a dimmer is on exactly when its reported brightness is positive |
| Light.TurnOnThenOn | homeassistant/components/mox/light.py:115-129 | once the dimmer takes the requested level it is on exactly when the brightness asked for is at least 3; a bare turn_on ends at full brightness |
| Light.TurnOffThenOff | homeassistant/components/mox/light.py:121-138 | once the dimmer takes the requested level it is off with brightness 0 |
| Light.TurnOnReportsBrightness | homeassistant/components/mox/light.py:115-138 | once the dimmer takes the level for brightness b it reports a brightness between b − 3 and b |
| Light.BuildEntities | homeassistant/components/mox/light.py:29-48 | one entity per entry in order, a dimmer exactly for type "dimmer", named by the display name, with the entry's id; fails at the first entry without an id |
| Light.Setup | homeassistant/components/mox/light.py:26-51 | nothing is added without discovery info or entries; otherwise every entry becomes a light, a dimmer exactly when its type is "dimmer"; a missing id fails setup |
| Cover.IsClosed | homeassistant/components/mox/cover.py:87-89 | closed exactly at position 0 |
| Cover.OpenCover | homeassistant/components/mox/cover.py:101-105 | below 100 it raises opening and asks for 100; at 100 or above it does nothing; closing is untouched |
| Cover.CloseCover | homeassistant/components/mox/cover.py:107-111 | above 0 it raises closing and asks for 0; at 0 or below it does nothing; opening is untouched |
| Cover.SetCoverPosition | homeassistant/components/mox/cover.py:113-122 | raises opening when the target is above the position and closing when below, never both newly, neither when equal; always asks for the target |
| Cover.Callback | homeassistant/components/mox/cover.py:74-79 | a position report lowers both flags and writes state; any other report changes nothing and writes nothing |
| Cover.Apply | homeassistant/components/mox/cover.py:74-122 | a callback makes no device call; a command makes at most one |
| Cover.Run | homeassistant/components/mox/cover.py:48-122 | a run starts from a new entity (neither flag up) and makes at most one device call per input |
| Cover.ApplyFlag | homeassistant/components/mox/cover.py:74-122 | one input raises a flag, lowers it on a position report, or keeps it |
| Cover.RunFlag | homeassistant/components/mox/cover.py:48-122 | from a new entity, after any run a flag is up exactly when some input raised it and no position report came after it |
| Cover.BothFlagsReachable | homeassistant/components/mox/cover.py:101-111 | open then close on a half-open curtain with no report in between leaves both flags up |
| Cover.ReportResets | homeassistant/components/mox/cover.py:74-79 | a run ending in a position report leaves both flags down, as for a new entity |
| Cover.CloseNoOpIffClosed | homeassistant/components/mox/cover.py:87-111 | on a position within 0..100, close_cover changes nothing and makes no call exactly when the cover reports closed |
| Cover.OpenNoOpIffOpen | homeassistant/components/mox/cover.py:101-105 | on a position within 0..100, open_cover changes nothing and makes no call exactly at position 100 |
| Lock.IsLocked | homeassistant/components/mox/lock.py:64-67 | locked is exactly the negation of the switch being on |
| Lock.Commands | homeassistant/components/mox/lock.py:74-86 | lock sends turn_off; unlock and open send turn_on then turn_off; every request ends with turn_off |
| Lock.OpenIsUnlock | homeassistant/components/mox/lock.py:84-86 | open sends the same calls as unlock |
| Lock.Callback | homeassistant/components/mox/lock.py:69-72 | state is written only for on/off reports |
| Lock.LastWrittenIsLastOnOff | homeassistant/components/mox/lock.py:64-72 | over any series of reports nothing is written by the callback without an on/off report, and the value it last wrote is the negation of the switch reading at the last one |
| Lock.CommandsFor | homeassistant/components/mox/lock.py:74-86 | a non-empty series of requests ends with turn_off |
| Lock.SwitchAfterLast | homeassistant/components/mox/lock.py:74-86 | a switch that carries out the calls ends in the state of the last call |
| Lock.EndsLocked | homeassistant/components/mox/lock.py:64-86 | after the calls of any non-empty series of requests, from any switch state, the lock reads locked |
| Lock.CommandCount | homeassistant/components/mox/lock.py:74-86 | a lock costs one call, an unlock or open two |
| Lock.OnIsFollowedByOff | homeassistant/components/mox/lock.py:78-82 | every turn_on is immediately followed by a turn_off |

## Left out

- The device library (switch, dimmer, curtain and client objects): how a device takes up a command is not modelled. Lemmas that speak of the state after a command take the device's new reading as a hypothesis.
- The one-second pause inside unlock, and the interleaving of awaited calls: only the order of the calls is modelled.
- Float behaviour of the brightness conversions outside levels 0..100 and brightness 0..255, and negative inputs, where Python's `int()` truncates toward zero. The model uses floor division on naturals throughout.
- A device reading of `None` for the luminous level: the model takes the level as a natural number.
- Light.IsOn, Light.LastWrittenIsLastTrigger: a plain light's switch reading of `None` is not modelled; the model takes the reading as a boolean. The source passes it through unchanged as an unknown on/off state, both from `is_on` and in the state the callback writes.
- Cover.OpenCover, Cover.CloseCover, Cover.SetCoverPosition, Cover.IsClosed: a position reading of `None` is not modelled; the model takes the position as an integer. In the source the comparisons in open, close and set-position then raise `TypeError`, and `is_closed` reads false. Likewise Lock.IsLocked does not model a switch reading of `None`, which reads as locked.
- Lock.Commands: a call that fails, or a request cancelled during the pause, is not modelled. The source catches no errors, so an unlock whose `turn_off` fails leaves the switch on and the lock unlocked; the lemmas about the switch's final state hold only when every call completes.
- Cover.OpenCover, Cover.CloseCover, Cover.SetCoverPosition: a failing or cancelled `set_position` call is not modelled. The source raises the flag before the call, so the flag then stays up although no call took effect.
- Light.LastWrittenIsLastTrigger, Lock.LastWrittenIsLastOnOff: writes the base Home Assistant entity makes on its own are not modelled. None of the entities turns off polling, so the framework also writes their state on every scan interval and after every service call, with no device report involved; those writes are also the only way a raised cover flag reaches Home Assistant. The model counts only the writes made by the device callback.
- Light.Setup: the client handle taken from the Home Assistant data and passed to every entity is not modelled. The unique id is kept as the device id; its hexadecimal rendering is not modelled. Only a missing id is modelled as an error; other malformed entries are not.
- Cover and lock platform setup, the switch and button platforms, and the integration's gateway connection in `__init__.py`: these are forwarding or I/O with no logic to state. The cover and lock platforms are both missing from the integration's platform list; their entities are modelled standalone.
- The entity `name` and `current_cover_position` properties, and the `is_opening`/`is_closing` properties: each returns a stored value unchanged, so they are the fields of the model's state and readings.

=== FILE: brightness.dfy ===
/** Conversion between Home Assistant's brightness scale (0..255) and the
    MOX dimmer's luminous level (0..100).

    The adapter computes both with floating-point arithmetic and truncates
    the result; on naturals of the intended ranges that is exactly integer
    floor division, which is what this module states. */
module Brightness {

  /** Largest Home Assistant brightness. */
  const HaMax: nat := 255

  /** Largest MOX luminous level. */
  const MoxMax: nat := 100

  /** Device level to Home Assistant brightness: the largest brightness `b`
      with `b / 255 <= level / 100`. */
  function MoxToHa(level: nat): (b: nat)
    ensures b * MoxMax <= level * HaMax < (b + 1) * MoxMax
    ensures level <= MoxMax ==> b <= HaMax
    ensures level == 0 ==> b == 0
    ensures level == MoxMax ==> b == HaMax
  {
    level * 255 / 100
  }

  /** Home Assistant brightness to device level: the largest level `l` with
      `l / 100 <= b / 255`. */
  function HaToMox(b: nat): (level: nat)
    ensures level * HaMax <= b * MoxMax < (level + 1) * HaMax
    ensures b <= HaMax ==> level <= MoxMax
    ensures b == 0 ==> level == 0
    ensures b == HaMax ==> level == MoxMax
  {
    b * 100 / 255
  }

  /** Both conversions are monotone. Since 255 > 100, `MoxToHa` is even
      strictly increasing: distinct device levels never show as the same
      brightness. */
  lemma MoxToHaMonotone(a: nat, c: nat)
    requires a <= c
    ensures MoxToHa(a) <= MoxToHa(c)
    ensures a < c ==> MoxToHa(a) < MoxToHa(c)
  {
  }

  lemma HaToMoxMonotone(a: nat, c: nat)
    requires a <= c
    ensures HaToMox(a) <= HaToMox(c)
  {
  }

  /** Going device -> Home Assistant -> device loses at most one level, and
      never gains one. */
  lemma LevelRoundTrip(level: nat)
    ensures HaToMox(MoxToHa(level)) <= level
    ensures level - 1 <= HaToMox(MoxToHa(level))
  {
  }

  /** The round trip is not the identity: level 1 shows as brightness 2,
      which maps back to level 0. */
  lemma LevelRoundTripLoses()
    ensures MoxToHa(1) == 2 && HaToMox(2) == 0
    ensures HaToMox(MoxToHa(1)) != 1
  {
  }

  /** Going Home Assistant -> device -> Home Assistant loses at most three
      brightness steps, and never gains any. */
  lemma BrightnessRoundTrip(b: nat)
    ensures MoxToHa(HaToMox(b)) <= b
    ensures b - 3 <= MoxToHa(HaToMox(b))
  {
  }

  /** On multiples of 51 brightness and 20 levels the two scales agree
      exactly, so both round trips are the identity there. */
  lemma ExactOnFifths(k: nat)
    requires k <= 5
    ensures MoxToHa(20 * k) == 51 * k
    ensures HaToMox(51 * k) == 20 * k
  {
  }

  /** Every device level can be requested from Home Assistant: the smallest
      brightness at or above `level * 2.55` converts to exactly `level`. */
  lemma HaToMoxOnto(level: nat)
    requires level <= MoxMax
    ensures exists b: nat :: b <= HaMax && HaToMox(b) == level
  {
    var b: nat := (level * HaMax + MoxMax - 1) / MoxMax;
    assert level * HaMax <= b * MoxMax < level * HaMax + MoxMax;
    var l := HaToMox(b);
    assert l * HaMax <= b * MoxMax < (l + 1) * HaMax;
    assert l == level;
  }

  /** Exactly the brightness values 0, 1 and 2 map to device level 0. */
  lemma HaToMoxZero(b: nat)
    ensures HaToMox(b) == 0 <==> b < 3
  {
  }

  /** Only device level 0 shows as brightness 0. */
  lemma MoxToHaZero(level: nat)
    ensures MoxToHa(level) == 0 <==> level == 0
  {
  }
}

=== FILE: cover.dfy ===
/** The MOX cover (curtain) entity. The entity keeps two flags, opening and
    closing, that commands raise after comparing the requested position with
    the curtain's current one; only a position report from the device lowers
    them. The current position is a reading passed in with every request;
    calls to the curtain are returned as a command list. */
module Cover {
  import opened MoxEntity

  /** Position of a fully open curtain. */
  const FullyOpen: int := 100

  /** Position of a fully closed curtain. */
  const FullyClosed: int := 0

  datatype CoverState = CoverState(opening: bool, closing: bool)

  /** A new entity is neither opening nor closing. */
  const Initial: CoverState := CoverState(false, false)

  /** A call the entity makes on its curtain. */
  datatype CurtainCommand = SetPosition(position: int)

  /** The entity state after a request, and the calls it made. */
  datatype Step = Step(state: CoverState, commands: seq<CurtainCommand>)

  /** The outcome of a device callback: the new state, and whether the
      entity wrote its state to Home Assistant. */
  datatype Reaction = Reaction(state: CoverState, written: bool)

  /** The cover reports closed exactly at position 0. */
  function IsClosed(position: int): (closed: bool)
    ensures closed <==> position == FullyClosed
  {
    position == 0
  }

  /** `open_cover`: unless the curtain is already fully open, raise the
      opening flag and ask for position 100. */
  function OpenCover(s: CoverState, position: int): (r: Step)
    ensures r.state.closing == s.closing
    ensures r.state.opening <==> s.opening || position < FullyOpen
    ensures r.commands == [] <==> position >= FullyOpen
    ensures forall i :: 0 <= i < |r.commands| ==> r.commands[i] == SetPosition(FullyOpen)
    ensures |r.commands| <= 1
  {
    if position < 100 then Step(s.(opening := true), [SetPosition(100)])
    else Step(s, [])
  }

  /** `close_cover`: unless the curtain is already fully closed, raise the
      closing flag and ask for position 0. */
  function CloseCover(s: CoverState, position: int): (r: Step)
    ensures r.state.opening == s.opening
    ensures r.state.closing <==> s.closing || position > FullyClosed
    ensures r.commands == [] <==> position <= FullyClosed
    ensures forall i :: 0 <= i < |r.commands| ==> r.commands[i] == SetPosition(FullyClosed)
    ensures |r.commands| <= 1
  {
    if position > 0 then Step(s.(closing := true), [SetPosition(0)])
    else Step(s, [])
  }

  /** `set_cover_position`: raise the flag of the direction the curtain has
      to move in (none when it is already there), and always ask for the
      target. */
  function SetCoverPosition(s: CoverState, position: int, target: int): (r: Step)
    ensures r.commands == [SetPosition(target)]
    ensures r.state.opening <==> s.opening || position < target
    ensures r.state.closing <==> s.closing || position > target
    ensures !(r.state.opening && !s.opening && r.state.closing && !s.closing)
    ensures position == target ==> r.state == s
  {
    if position < target then Step(s.(opening := true), [SetPosition(target)])
    else if position > target then Step(s.(closing := true), [SetPosition(target)])
    else Step(s, [SetPosition(target)])
  }

  /** Device callback: a position report lowers both flags and writes the
      state; any other report changes nothing. */
  function Callback(s: CoverState, event: StateType): (r: Reaction)
    ensures r.written <==> event == Position
    ensures r.written ==> !r.state.opening && !r.state.closing
    ensures !r.written ==> r.state == s
  {
    if event == Position then Reaction(CoverState(false, false), true)
    else Reaction(s, false)
  }

  // ---------------------------------------------------------------------
  // Runs of requests

  /** A request to the entity: a user command or a device callback. */
  datatype Request = Open | Close | MoveTo(target: int) | Notify(event: StateType)

  /** A request together with the curtain position read when it is handled. */
  datatype Input = Input(request: Request, position: int)

  /** The entity's handling of one input. */
  function Apply(s: CoverState, input: Input): (r: Step)
    ensures input.request.Notify? ==> r.commands == []
    ensures !input.request.Notify? ==> |r.commands| <= 1
  {
    match input.request
    case Open => OpenCover(s, input.position)
    case Close => CloseCover(s, input.position)
    case MoveTo(t) => SetCoverPosition(s, input.position, t)
    case Notify(e) => Step(Callback(s, e).state, [])
  }

  /** A run of inputs from a new entity: the final state and every call made,
      in order. */
  function Run(inputs: seq<Input>): (r: Step)
    ensures |r.commands| <= |inputs|
  {
    if |inputs| == 0 then Step(Initial, [])
    else
      var before := Run(inputs[..|inputs| - 1]);
      var last := Apply(before.state, inputs[|inputs| - 1]);
      Step(last.state, before.commands + last.commands)
  }

  /** The two flags. */
  datatype Direction = Opening | Closing

  function Flag(s: CoverState, d: Direction): (up: bool)
  {
    match d
    case Opening => s.opening
    case Closing => s.closing
  }

  /** Whether an input raises the flag of direction `d`. */
  predicate Raises(input: Input, d: Direction) {
    match input.request
    case Open => d == Opening && input.position < FullyOpen
    case Close => d == Closing && input.position > FullyClosed
    case MoveTo(t) =>
      if d == Opening then input.position < t else input.position > t
    case Notify(_) => false
  }

  /** Whether an input lowers both flags. */
  predicate Clears(input: Input) {
    input.request == Notify(Position)
  }

  /** Some input raised the flag and no position report followed it. */
  ghost predicate RaisedSinceClear(inputs: seq<Input>, d: Direction) {
    exists k :: 0 <= k < |inputs| && Raises(inputs[k], d) &&
      forall j :: k < j < |inputs| ==> !Clears(inputs[j])
  }

  /** One step raises, lowers or keeps a flag exactly as `Raises` and
      `Clears` say. */
  lemma ApplyFlag(s: CoverState, input: Input, d: Direction)
    ensures Flag(Apply(s, input).state, d) <==> Raises(input, d) || (Flag(s, d) && !Clears(input))
  {
  }

  /** After any run, a flag is up exactly when some input raised it and no
      position report came after that input. */
  lemma {:induction false} RunFlag(inputs: seq<Input>, d: Direction)
    ensures Flag(Run(inputs).state, d) <==> RaisedSinceClear(inputs, d)
  {
    if |inputs| == 0 {
    } else {
      var n := |inputs| - 1;
      var prefix := inputs[..n];
      var last := inputs[n];
      RunFlag(prefix, d);
      ApplyFlag(Run(prefix).state, last, d);
      assert forall k :: 0 <= k < n ==> prefix[k] == inputs[k];
      if Flag(Run(inputs).state, d) {
        if Raises(last, d) {
          assert Raises(inputs[n], d);
        } else {
          var k :| 0 <= k < n && Raises(prefix[k], d) &&
            forall j :: k < j < n ==> !Clears(prefix[j]);
          assert Raises(inputs[k], d) && forall j :: k < j < |inputs| ==> !Clears(inputs[j]);
        }
      } else {
        assert !Raises(last, d);
        forall k | 0 <= k < |inputs| && Raises(inputs[k], d)
          ensures exists j :: k < j < |inputs| && Clears(inputs[j])
        {
          assert k < n;
          if Clears(last) {
            assert Clears(inputs[n]);
          } else {
            assert Raises(prefix[k], d);
            var j :| k < j < n && Clears(prefix[j]);
            assert Clears(inputs[j]);
          }
        }
      }
    }
  }

  /** Commands only ever raise flags, so both can be up at once: opening and
      then closing a half-open curtain before any report leaves both up. */
  lemma BothFlagsReachable()
    ensures Run([Input(Open, 50), Input(Close, 50)]).state == CoverState(true, true)
  {
  }

  /** A run that ends in a position report leaves the entity as new. */
  lemma ReportResets(inputs: seq<Input>)
    requires |inputs| > 0 && Clears(inputs[|inputs| - 1])
    ensures Run(inputs).state == Initial
  {
  }

  /** On a curtain within 0..100, `close_cover` does nothing at all exactly
      when the cover reports closed. */
  lemma CloseNoOpIffClosed(s: CoverState, position: int)
    requires FullyClosed <= position <= FullyOpen
    ensures CloseCover(s, position) == Step(s, []) <==> IsClosed(position)
  {
  }

  /** On a curtain within 0..100, `open_cover` does nothing at all exactly
      when the curtain is fully open. */
  lemma OpenNoOpIffOpen(s: CoverState, position: int)
    requires FullyClosed <= position <= FullyOpen
    ensures OpenCover(s, position) == Step(s, []) <==> position == FullyOpen
  {
  }
}

=== FILE: entity.dfy ===
/** Vocabulary shared by the MOX light, cover and lock entities: optional
    values, the state-change kinds the device library reports through its
    callback, and how an entity picks its display name. */
module MoxEntity {

  /** A value that may be absent, as Python's `None`. */
  datatype Option<+T> = None | Some(value: T) {

    /** The held value, or `default` when absent (Python's `dict.get(key, default)`). */
    function GetOr(default: T): T {
      match this
      case Some(v) => v
      case None => default
    }
  }

  /** The kind of change a device reports through its callback. `OnOff`,
      `Luminous` and `Position` are the kinds the entities react to; every
      other kind of the device library's enums is an `Other`. */
  datatype StateType = OnOff | Luminous | Position | Other(tag: string)

  /** The entity name: the configured friendly name when it is present and
      non-empty (Python truthiness of `friendly_name or device_name`),
      otherwise the device name used as the discovery key. */
  function DisplayName(deviceName: string, friendlyName: Option<string>): (name: string)
    ensures friendlyName.Some? && friendlyName.value != [] ==> name == friendlyName.value
    ensures friendlyName == None || friendlyName == Some([]) ==> name == deviceName
    ensures name == [] ==> deviceName == []
  {
    match friendlyName
    case Some(f) => if f != [] then f else deviceName
    case None => deviceName
  }

  /** The display name is always one of the two names, and it is the device
      name exactly when the friendly name is missing, empty, or that same
      name. */
  lemma DisplayNameChoice(deviceName: string, friendlyName: Option<string>)
    ensures DisplayName(deviceName, friendlyName) == deviceName ||
      DisplayName(deviceName, friendlyName) == friendlyName.value
    ensures DisplayName(deviceName, friendlyName) == deviceName <==>
      friendlyName == None || friendlyName == Some([]) || friendlyName == Some(deviceName)
  {
  }

  // ---------------------------------------------------------------------
  // State written by a device callback over a series of reports

  /** A device report together with the device reading at that moment. */
  datatype Report<+D> = Report(event: StateType, reading: D)

  /** The value an entity's callback last wrote over a series of reports,
      if it wrote at all: `writes` says which report kinds make the callback
      write, and `view` what it writes for a reading. Writes the base
      Home Assistant entity makes on its own are not part of this. */
  function LastWritten<D, V>(reports: seq<Report<D>>, writes: StateType -> bool, view: D -> V): (w: Option<V>)
    decreases |reports|
  {
    if |reports| == 0 then None
    else
      var last := reports[|reports| - 1];
      if writes(last.event) then Some(view(last.reading))
      else LastWritten(reports[..|reports| - 1], writes, view)
  }

  /** Report `k` is one the callback writes for, and none after it is. */
  ghost predicate LastWriteAt<D>(reports: seq<Report<D>>, writes: StateType -> bool, k: int) {
    && 0 <= k < |reports|
    && writes(reports[k].event)
    && forall j :: k < j < |reports| ==> !writes(reports[j].event)
  }

  /** Over any series of reports, the callback writes nothing unless some
      report is of a kind it writes for, and what it last wrote is the view
      of the reading at the last such report. */
  lemma {:induction false} LastWrittenAtLastWrite<D, V>(reports: seq<Report<D>>, writes: StateType -> bool, view: D -> V)
    ensures LastWritten(reports, writes, view).None? <==>
      forall k :: 0 <= k < |reports| ==> !writes(reports[k].event)
    ensures LastWritten(reports, writes, view).Some? ==> exists k ::
      LastWriteAt(reports, writes, k) && LastWritten(reports, writes, view).value == view(reports[k].reading)
    decreases |reports|
  {
    if |reports| > 0 {
      var n := |reports| - 1;
      var prefix := reports[..n];
      var w := LastWritten(reports, writes, view);
      var pw := LastWritten(prefix, writes, view);
      assert w == if writes(reports[n].event) then Some(view(reports[n].reading)) else pw;
      LastWrittenAtLastWrite(prefix, writes, view);
      if writes(reports[n].event) {
        assert LastWriteAt(reports, writes, n);
      } else {
        assert forall k :: 0 <= k < n ==> prefix[k] == reports[k];
        if pw.Some? {
          var k :| LastWriteAt(prefix, writes, k) && pw.value == view(prefix[k].reading);
          assert LastWriteAt(reports, writes, k);
        }
      }
    }
  }
}

=== FILE: light.dfy ===
/** The MOX light platform: a plain light backed by a MOX switch, and a
    dimmer backed by a MOX dimmer that overrides the plain light's commands,
    readings and callback. Device readings are inputs; requests to the
    device are returned as a command list. */
module Light {
  import opened MoxEntity
  import opened Brightness

  /** Which of the two entity classes an entity is. */
  datatype LightKind = Plain | Dimmer

  /** A call the entity makes on its device. `SetLuminous` carries the
      target level and the second argument the adapter always passes, whose
      meaning belongs to the device library. */
  datatype LightCommand = TurnOn | TurnOff | SetLuminous(level: nat, second: nat)

  /** What the device library reports about the device: the switch state
      (read by a plain light) and the luminous level (read by a dimmer). */
  datatype LightDevice = LightDevice(on: bool, level: nat)

  /** Brightness assumed by a dimmer `turn_on` that names none. */
  const DefaultBrightness: nat := 255

  /** Second argument of every `set_luminous` call the dimmer makes. */
  const LuminousArg: nat := 100

  /** Commands for a `turn_on` request, with the optional brightness
      attribute of the request. A plain light ignores the brightness. */
  function TurnOnRequest(kind: LightKind, brightness: Option<nat>): (cmds: seq<LightCommand>)
    ensures |cmds| == 1
    ensures kind == Plain ==> cmds[0] == TurnOn
    ensures kind == Dimmer ==> cmds[0].SetLuminous? && cmds[0].second == LuminousArg
    ensures kind == Dimmer ==> cmds[0].level * HaMax <= brightness.GetOr(HaMax) * MoxMax < (cmds[0].level + 1) * HaMax
    ensures kind == Dimmer && brightness == None ==> cmds[0].level == MoxMax
    ensures kind == Dimmer && brightness.GetOr(HaMax) <= HaMax ==> cmds[0].level <= MoxMax
  {
    match kind
    case Plain => [TurnOn]
    case Dimmer => [SetLuminous(HaToMox(brightness.GetOr(DefaultBrightness)), LuminousArg)]
  }

  /** Commands for a `turn_off` request: a dimmer asks for level 0. */
  function TurnOffRequest(kind: LightKind): (cmds: seq<LightCommand>)
    ensures |cmds| == 1
    ensures kind == Plain ==> cmds[0] == TurnOff
    ensures kind == Dimmer ==> cmds[0].SetLuminous? && cmds[0].level == 0 && cmds[0].second == LuminousArg
  {
    match kind
    case Plain => [TurnOff]
    case Dimmer => [SetLuminous(0, LuminousArg)]
  }

  /** Whether the entity reports itself on: the switch state for a plain
      light, a non-zero level for a dimmer. */
  function IsOn(kind: LightKind, device: LightDevice): (on: bool)
    ensures kind == Plain ==> on == device.on
    ensures kind == Dimmer ==> (on <==> device.level > 0)
  {
    match kind
    case Plain => device.on
    case Dimmer => device.level != 0
  }

  /** The brightness the entity reports: none for a plain light (the base
      light entity's default), the converted level for a dimmer. */
  function ReportedBrightness(kind: LightKind, device: LightDevice): (b: Option<nat>)
    ensures kind == Plain ==> b == None
    ensures kind == Dimmer ==> b.Some?
    ensures kind == Dimmer && device.level <= MoxMax ==> b.value <= HaMax
    ensures kind == Dimmer ==> b.value * MoxMax <= device.level * HaMax < (b.value + 1) * MoxMax
  {
    match kind
    case Plain => None
    case Dimmer => Some(MoxToHa(device.level))
  }

  /** Whether a device callback of the given kind makes the entity write its
      state: switch changes for a plain light, level changes for a dimmer. */
  function Callback(kind: LightKind, event: StateType): (written: bool)
    ensures kind == Plain ==> (written <==> event == OnOff)
    ensures kind == Dimmer ==> (written <==> event == Luminous)
  {
    match kind
    case Plain => event == OnOff
    case Dimmer => event == Luminous
  }

  /** A dimmer reports itself on exactly when it reports a positive
      brightness. */
  lemma DimmerOnIffBright(device: LightDevice)
    ensures IsOn(Dimmer, device) <==> ReportedBrightness(Dimmer, device).value > 0
  {
  }

  /** If the dimmer takes up the level a `turn_on` asked for, it reports
      itself on exactly when the requested brightness is at least 3: a
      brightness of 1 or 2 is sent as level 0, which is off. A `turn_on`
      without brightness always ends on, at full level. */
  lemma TurnOnThenOn(brightness: Option<nat>, device: LightDevice)
    requires device.level == TurnOnRequest(Dimmer, brightness)[0].level
    ensures IsOn(Dimmer, device) <==> brightness.GetOr(DefaultBrightness) >= 3
    ensures brightness == None ==> IsOn(Dimmer, device) && ReportedBrightness(Dimmer, device) == Some(HaMax)
  {
  }

  /** If the dimmer takes up the level a `turn_off` asked for, it reports
      itself off with brightness 0. */
  lemma TurnOffThenOff(device: LightDevice)
    requires device.level == TurnOffRequest(Dimmer)[0].level
    ensures !IsOn(Dimmer, device)
    ensures ReportedBrightness(Dimmer, device) == Some(0)
  {
  }

  /** If the dimmer takes up the level of a `turn_on` with brightness `b`,
      the brightness it then reports is at most `b` and at most three
      below it. */
  lemma TurnOnReportsBrightness(b: nat, device: LightDevice)
    requires device.level == TurnOnRequest(Dimmer, Some(b))[0].level
    ensures ReportedBrightness(Dimmer, device).value <= b
    ensures b - 3 <= ReportedBrightness(Dimmer, device).value
  {
  }

  // ---------------------------------------------------------------------
  // Series of device reports

  /** The light state written to Home Assistant: on/off and brightness. */
  datatype WrittenState = WrittenState(on: bool, brightness: Option<nat>)

  /** The report kind each entity class's callback writes for. */
  function Trigger(kind: LightKind): (event: StateType)
    ensures Callback(kind, event)
  {
    match kind
    case Plain => OnOff
    case Dimmer => Luminous
  }

  /** The state an entity reads from its device. */
  function Read(kind: LightKind, device: LightDevice): (w: WrittenState)
  {
    WrittenState(IsOn(kind, device), ReportedBrightness(kind, device))
  }

  /** The light state the callback last wrote over a series of reports. */
  function CallbackWrites(kind: LightKind, reports: seq<Report<LightDevice>>): (w: Option<WrittenState>)
  {
    LastWritten(reports, e => Callback(kind, e), d => Read(kind, d))
  }

  /** Over any series of reports, nothing is written by the callback without
      a report of the class's trigger kind (on/off for a plain light,
      luminous for a dimmer), and the state it last wrote is the one read at
      the last such report. */
  lemma {:induction false} LastWrittenIsLastTrigger(kind: LightKind, reports: seq<Report<LightDevice>>)
    ensures CallbackWrites(kind, reports).None? <==>
      forall k :: 0 <= k < |reports| ==> reports[k].event != Trigger(kind)
    ensures CallbackWrites(kind, reports).Some? ==> exists k ::
      && 0 <= k < |reports|
      && reports[k].event == Trigger(kind)
      && (forall j :: k < j < |reports| ==> reports[j].event != Trigger(kind))
      && CallbackWrites(kind, reports).value == Read(kind, reports[k].reading)
  {
    LastWrittenAtLastWrite(reports, e => Callback(kind, e), d => Read(kind, d));
  }

  // ---------------------------------------------------------------------
  // Platform setup

  /** One discovery entry's settings; each key may be missing. */
  datatype DeviceInfo = DeviceInfo(id: Option<int>, displayName: Option<string>, deviceType: Option<string>)

  /** A created light entity: its class, name and unique id (the device id,
      which the source renders in hexadecimal). */
  datatype LightEntity = LightEntity(kind: LightKind, name: string, uniqueId: int)

  /** Why setup failed: an entry without an id (the entity's constructor
      raises when it formats the missing id). */
  datatype SetupError = MissingId(deviceName: string)

  datatype BuildResult = Built(entities: seq<LightEntity>) | BuildFailed(error: SetupError)

  /** What setup hands to Home Assistant. */
  datatype SetupOutcome = Added(entities: seq<LightEntity>) | NothingAdded | Failed(error: SetupError)

  /** The type setting that selects a dimmer. */
  const DimmerType: string := "dimmer"

  /** The entity class chosen for an entry. */
  function KindFor(info: DeviceInfo): (kind: LightKind)
    ensures kind == Dimmer <==> info.deviceType == Some(DimmerType)
  {
    if info.deviceType == Some(DimmerType) then Dimmer else Plain
  }

  /** The entity an entry becomes when it has an id. */
  function EntityFor(name: string, info: DeviceInfo): (e: LightEntity)
    requires info.id.Some?
    ensures e.kind == KindFor(info) && e.uniqueId == info.id.value
  {
    LightEntity(KindFor(info), DisplayName(name, info.displayName), info.id.value)
  }

  /** Entries that all carry an id. */
  ghost predicate AllHaveIds(entries: seq<(string, DeviceInfo)>) {
    forall i :: 0 <= i < |entries| ==> entries[i].1.id.Some?
  }

  /** One entity per entry, in discovery order, stopping at the first entry
      without an id. */
  function BuildEntities(entries: seq<(string, DeviceInfo)>): (r: BuildResult)
    ensures r.Built? <==> AllHaveIds(entries)
    ensures r.Built? ==> |r.entities| == |entries|
    ensures r.Built? ==> forall i :: 0 <= i < |entries| ==>
      && r.entities[i].kind == KindFor(entries[i].1)
      && r.entities[i].name == DisplayName(entries[i].0, entries[i].1.displayName)
      && r.entities[i].uniqueId == entries[i].1.id.value
    ensures r.BuildFailed? ==> exists k ::
      && 0 <= k < |entries|
      && entries[k].1.id == None
      && r.error == MissingId(entries[k].0)
      && AllHaveIds(entries[..k])
  {
    if |entries| == 0 then Built([])
    else
      var (name, info) := entries[0];
      if info.id == None then
        assert AllHaveIds(entries[..0]);
        BuildFailed(MissingId(name))
      else
        match BuildEntities(entries[1..])
        case Built(rest) =>
          Built([EntityFor(name, info)] + rest)
        case BuildFailed(e) =>
          assert forall k :: 0 <= k < |entries| - 1 ==> entries[1..][..k] == entries[1..k+1];
          BuildFailed(e)
  }

  /** Light platform setup: nothing when there is no discovery information
      or no entry; otherwise every entry becomes an entity, a dimmer exactly
      when its type is "dimmer", unless an entry lacks an id. */
  function Setup(discovery: Option<seq<(string, DeviceInfo)>>): (r: SetupOutcome)
    ensures r == NothingAdded <==> discovery == None || discovery == Some([])
    ensures r.Failed? <==> discovery.Some? && !AllHaveIds(discovery.value)
    ensures r.Added? ==> |r.entities| == |discovery.value| > 0
    ensures r.Added? ==> forall i :: 0 <= i < |r.entities| ==>
      (r.entities[i].kind == Dimmer <==> discovery.value[i].1.deviceType == Some(DimmerType))
  {
    match discovery
    case None => NothingAdded
    case Some(entries) =>
      match BuildEntities(entries)
      case BuildFailed(e) => Failed(e)
      case Built(es) => if |es| > 0 then Added(es) else NothingAdded
  }
}

=== FILE: lock.dfy ===
/** The MOX lock: a lock entity on top of a MOX switch, where the switch
    being off means locked. Unlocking pulses the switch on and back off, so
    when every call completes the switch is left in the locked position. The
    switch reading is an input; calls to the switch are returned as a
    command list. */
module Lock {
  import opened MoxEntity

  /** A call the entity makes on its switch. */
  datatype SwitchCommand = TurnOn | TurnOff

  /** A request to the lock entity. */
  datatype LockRequest = LockDoor | UnlockDoor | OpenLatch

  /** The lock reports locked exactly when its switch is off. */
  function IsLocked(switchOn: bool): (locked: bool)
    ensures locked != switchOn
  {
    !switchOn
  }

  /** The calls a request makes, in order: locking turns the switch off;
      unlocking turns it on and (after a pause) off again; opening the latch
      is an unlock. */
  function Commands(request: LockRequest): (cmds: seq<SwitchCommand>)
    ensures |cmds| > 0 && cmds[|cmds| - 1] == TurnOff
    ensures request == LockDoor ==> cmds == [TurnOff]
    ensures request != LockDoor ==> cmds == [TurnOn, TurnOff]
    decreases request == OpenLatch
  {
    match request
    case LockDoor => [TurnOff]
    case UnlockDoor => [TurnOn, TurnOff]
    case OpenLatch => Commands(UnlockDoor)
  }

  /** Opening the latch and unlocking are indistinguishable to the switch. */
  lemma OpenIsUnlock()
    ensures Commands(OpenLatch) == Commands(UnlockDoor)
  {
  }

  /** Device callback: only a switch on/off report makes the entity write
      its state. */
  function Callback(event: StateType): (written: bool)
    ensures written <==> event == OnOff
  {
    event == OnOff
  }

  /** The lock state the callback last wrote over a series of reports. */
  function CallbackWrites(reports: seq<Report<bool>>): (w: Option<bool>)
  {
    LastWritten(reports, Callback, IsLocked)
  }

  /** Over any series of reports, nothing is written by the callback without
      an on/off report, and the value it last wrote is the negation of the
      switch reading at the last on/off report. */
  lemma {:induction false} LastWrittenIsLastOnOff(reports: seq<Report<bool>>)
    ensures CallbackWrites(reports).None? <==>
      forall k :: 0 <= k < |reports| ==> reports[k].event != OnOff
    ensures CallbackWrites(reports).Some? ==> exists k ::
      && 0 <= k < |reports|
      && reports[k].event == OnOff
      && (forall j :: k < j < |reports| ==> reports[j].event != OnOff)
      && CallbackWrites(reports).value == !reports[k].reading
  {
    LastWrittenAtLastWrite(reports, Callback, IsLocked);
  }

  /** All calls made for a series of requests, in order. */
  function CommandsFor(requests: seq<LockRequest>): (cmds: seq<SwitchCommand>)
    ensures |requests| > 0 ==> |cmds| > 0 && cmds[|cmds| - 1] == TurnOff
    ensures |requests| == 0 ==> cmds == []
  {
    if |requests| == 0 then []
    else Commands(requests[0]) + CommandsFor(requests[1..])
  }

  /** The switch state a switch that carries out every call in order ends
      in, starting from `on`. */
  function SwitchAfter(on: bool, cmds: seq<SwitchCommand>): (after: bool)
    ensures cmds == [] ==> after == on
    decreases |cmds|
  {
    if |cmds| == 0 then on
    else SwitchAfter(cmds[0] == TurnOn, cmds[1..])
  }

  /** A switch that carries out the calls ends in the state of the last one. */
  lemma {:induction false} SwitchAfterLast(on: bool, cmds: seq<SwitchCommand>)
    requires |cmds| > 0
    ensures SwitchAfter(on, cmds) == (cmds[|cmds| - 1] == TurnOn)
    decreases |cmds|
  {
    if |cmds| > 1 {
      SwitchAfterLast(cmds[0] == TurnOn, cmds[1..]);
    }
  }

  /** Whatever the requests and whatever the switch was, once the switch has
      carried out the calls of at least one request the lock reads locked. */
  lemma EndsLocked(on: bool, requests: seq<LockRequest>)
    requires |requests| > 0
    ensures IsLocked(SwitchAfter(on, CommandsFor(requests)))
  {
    SwitchAfterLast(on, CommandsFor(requests));
  }

  /** Number of requests in a series that are not `LockDoor`. */
  function Unlocks(requests: seq<LockRequest>): (n: nat)
    ensures n <= |requests|
    ensures n == 0 <==> forall i :: 0 <= i < |requests| ==> requests[i] == LockDoor
  {
    if |requests| == 0 then 0
    else (if requests[0] == LockDoor then 0 else 1) + Unlocks(requests[1..])
  }

  /** Each lock costs one call and each unlock or open two. */
  lemma {:induction false} CommandCount(requests: seq<LockRequest>)
    ensures |CommandsFor(requests)| == |requests| + Unlocks(requests)
  {
    if |requests| > 0 {
      CommandCount(requests[1..]);
    }
  }

  /** When every call completes the switch is never left on: every `TurnOn`
      is immediately followed by a `TurnOff`. */
  lemma {:induction false} OnIsFollowedByOff(requests: seq<LockRequest>)
    ensures forall i :: 0 <= i < |CommandsFor(requests)| && CommandsFor(requests)[i] == TurnOn ==>
      i + 1 < |CommandsFor(requests)| && CommandsFor(requests)[i + 1] == TurnOff
  {
    if |requests| > 0 {
      OnIsFollowedByOff(requests[1..]);
      var head := Commands(requests[0]);
      var tail := CommandsFor(requests[1..]);
      assert CommandsFor(requests) == head + tail;
      forall i | 0 <= i < |head + tail| && (head + tail)[i] == TurnOn
        ensures i + 1 < |head + tail| && (head + tail)[i + 1] == TurnOff
      {
        if i >= |head| {
          assert (head + tail)[i] == tail[i - |head|];
          assert (head + tail)[i + 1] == tail[i + 1 - |head|];
        }
      }
    }
  }
}
